=== FILE: README.md ===
# What-if: navigation state model

A Dafny model of the navigation logic of the "What if" scenario browser
(`app.js`). The page keeps one global `AppState`: the full scenario
collection, the working set selected by a category filter, a cursor into
the working set, the category tag, the colour theme and the id of the
"scenario of the day". The model treats that record as an immutable
datatype (`App.AppState`), pairs it with the URL fragment (`App.Page`), and
writes every handler as a pure transition:

- start-up (`initApp`, `loadScenarios`, `calculateDailyScenario`,
  `handleRouting`): `App.Init`;
- the category filter (`filterScenarios`): `App.FilterScenarios` over
  `Scenarios.FilterBy`;
- the scenario of the day, `floor(now / 86400000) % length`:
  `Scenarios.DailyIndex` and `Scenarios.DailyId`;
- the cyclic next and previous buttons: `Cursor.NextIndex`,
  `Cursor.PrevIndex`, `App.NextClick`, `App.PrevClick`;
- the `#id=<id>` fragment: `Route.Encode` (`updateHash`) and `Route.Decode`
  (`handleRouting`'s `parseInt`, section 19.2.5 of ECMA-262, modelled in
  `JsNumbers.ParseInt`);
- the jump to a decoded id or to the daily id: `App.JumpTo`,
  `App.HandleRouting`, `App.DailyClick`;
- `getCategoryName`, the theme flip and the daily badge test:
  `Categories.CategoryName`, `Theme.ToggleTheme`, `App.IsDaily`.

JavaScript semantics are written out where they matter: the cursor is an
integer Number or NaN (`JsValues.Num`), `%` truncates toward zero
(`JsValues.Rem`), `null`/`undefined`/NaN lookups are `None`, and an exception
caught by `initApp` is the `failed` flag of `App.Boot`. A scenario is reduced
to its `id` and `category`; ids are safe integers (at most 2^53 - 1 in
magnitude), the range in which a JSON number id prints in plain decimal and
compares exactly.

The model follows the code as written:

- jumping to an id always resets the filter to "all", even when the id is
  already in the working set;
- a category with no scenarios leaves the cursor at 0 (out of range), and
  next/previous on it store NaN, which later filters and jumps reset;
- an empty collection makes the daily pick throw (`scenarios[NaN].id`), and
  the catch in `initApp` shows that error card;
- the only fragment the page reads or writes is `#id=<id>`, and the
  navigation state is never stored (`CONFIG.appStateKey` is declared but
  unused), so a reload starts from the collection and the fragment alone.

## Model

| member | source | states |
|---|---|---|
| JsValues.Rem | app.js:196-197 | JavaScript `%` with a positive divisor: the result lies strictly between `-b` and `b`, has the sign of the dividend, and differs from the dividend by a multiple of `b` (which fixes it; it equals Euclidean `%` on a non-negative dividend) |
| JsValues.RemNum | app.js:95 | Number `%` by an array length is NaN exactly when the dividend is NaN or the length is 0; otherwise it is within `(-n, n)`, has the sign of the dividend, differs from it by a multiple of `n`, and equals the Euclidean remainder for a non-negative dividend |
| Scenarios.FindIndex | app.js:103 | `findIndex` returns -1 exactly when no record has the id, and otherwise the index of the first record with that id |
| Scenarios.Matching | app.js:88 | `Array.filter` by category keeps only records of the category, and a record is kept exactly when it is in the collection with that category |
| Scenarios.FilterBy | app.js:86-88 | "all" yields the whole collection unchanged; any other tag yields exactly the records whose category equals it; the result never holds a record outside the collection |
| Scenarios.MatchingIsSubsequence | app.js:88 | the filtered records appear in their original relative order |
| Scenarios.MatchingMultiplicity | app.js:88 | each record of the category is kept as often as it occurs, every other record is dropped |
| Scenarios.MatchingAppend | app.js:88 | filtering a concatenation is the concatenation of the filtered parts |
| Scenarios.FilterIdempotent | app.js:86-88 | filtering the working set again by the same tag changes nothing |
| Scenarios.DailyIndex | app.js:94-95 | the day's index is NaN exactly for an empty collection, and for a non-negative clock it is `floor(now / 86400000) mod n` |
| Scenarios.DailyId | app.js:93-97 | the daily id is absent (the read throws) for an empty collection, for a non-empty collection and a non-negative clock it is the id of `scenarios[floor(now / 86400000) mod length]`, and it is always the id of some record of the unfiltered collection |
| Scenarios.DailySameDay | app.js:35 | every instant of the same day, from midnight to one millisecond before the next, picks the same scenario |
| Scenarios.DailyNextDay | app.js:94-95 | at midnight the daily index moves one place forward, wrapping from the last record to the first |
| Cursor.NextIndex | app.js:196 | `(i + 1) % n` keeps an in-range cursor in range and is NaN for an empty list or a NaN cursor |
| Cursor.PrevIndex | app.js:197 | `(i - 1 + n) % n` keeps an in-range cursor in range and is NaN for an empty list or a NaN cursor |
| Cursor.PrevAfterNext | app.js:196-197 | previous after next is the identity on an in-range cursor |
| Cursor.NextAfterPrev | app.js:196-197 | next after previous is the identity on an in-range cursor |
| Cursor.AdvanceIsModular | app.js:196 | `k` presses of next move an in-range cursor to `(i + k) mod n` |
| Cursor.AdvanceFullCycle | app.js:196 | `n` presses of next return the cursor to where it started |
| JsNumbers.TrimStart | app.js:102 | `parseInt` drops exactly the leading white space: the result is no longer than the input and does not start with white space, and every dropped character is white space |
| JsNumbers.DigitPrefix | app.js:102 | `parseInt` reads the longest run of digits of its radix at the front |
| JsNumbers.ParseMagnitude | app.js:102 | after the sign, a number is read only from text that starts with a decimal digit (a "0x" prefix starts with 0) |
| JsNumbers.ParseInt | app.js:102 | `parseInt` yields a number only when a decimal digit follows the leading white space and an optional sign |
| JsNumbers.ParseIntNeedsDigit | app.js:102 | input without any decimal digit parses to NaN |
| JsNumbers.ParseIntSkipsWhiteSpace | app.js:102 | leading white space never changes the parsed value |
| JsNumbers.ParseIntHexPrefix | app.js:102 | without a radix, "0x1A" parses as 26, "-0x10" as -16, and a bare "0x" as NaN |
| JsNumbers.NatToDecimal | app.js:114 | the decimal numeral of a natural number is non-empty, all digits, and starts with 0 only for zero |
| JsNumbers.ToDecimal | app.js:114 | an id prints as a minus sign exactly for negative ids, followed by the numeral of its magnitude |
| JsNumbers.NatToDecimalValue | app.js:114 | reading a printed numeral back gives the number |
| JsNumbers.ParseIntIgnoresTrailing | app.js:102 | a printed integer followed by text that neither extends the numeral nor forms "0x" parses back to that integer |
| JsNumbers.ParseIntRoundTrip | app.js:102 | `parseInt` of a printed integer gives the integer back |
| Route.Encode | app.js:114 | the written fragment starts with "#id=" and carries at least one character after it |
| Route.Decode | app.js:101-102 | a fragment requests an id only if it starts with "#id=" and has text after it |
| Route.DecodeEncode | app.js:101-114 | decoding the fragment written for an id gives the id back |
| Route.DecodeIgnoresTrailing | app.js:101-102 | trailing text after the numeral is ignored ("#id=12abc" requests 12) unless it extends the numeral or forms "0x" |
| Route.DecodeNeedsDigit | app.js:101-102 | a fragment requests no jump unless a decimal digit follows "#id=", the white space and an optional sign |
| Route.DecodeRejectsGarbage | app.js:101-102 | "", "#bogus", "#id=", "#id=abc", "#ID=7", "#id=x5" and "#id=-x5" request no jump |
| Categories.CategoryNameAsWritten | app.js:167-170 | the object lookup as written: known tags give their label, and exactly the inherited `Object.prototype` member names give a non-label value |
| Categories.CategoryName | app.js:167-170 | the label differs from the default exactly for the four known tags, and is always the default or one of the four labels |
| Categories.CategoryNameTable | app.js:168-169 | tech, society, nature and human map to their four labels, and every other tag maps to "Разное" |
| Categories.AsWrittenAgreesOffInherited | app.js:167-170 | the written lookup and the intended one agree on every tag that is not an inherited member name |
| Categories.InheritedMemberLeaksThrough | app.js:168-169 | the tag "constructor" yields the inherited constructor instead of the default label |
| Theme.LoadTheme | app.js:176-178 | a missing or empty stored theme falls back to "dark"; any other stored string is kept; the theme is never empty |
| Theme.ToggleTheme | app.js:183-184 | the flip always yields "dark" or "light", and yields "light" exactly when the theme was "dark" |
| Theme.ToggleTwice | app.js:184 | flipping twice restores the theme exactly when it was "dark" or "light"; any other value flips to "dark" |
| App.Current | app.js:113 | the shown scenario exists exactly when the cursor is in range, and is then the element of the working set at the cursor |
| App.IsDaily | app.js:123 | the badge is shown exactly when a scenario is shown and the daily id is non-null and equal to its id |
| App.Caption | app.js:118-121 | a caption exists exactly when a scenario is shown, and it is the default or one of the four labels, the default for unknown tags; for every tag that is not an inherited member name it is the label the written lookup gives |
| App.FilterScenarios | app.js:84-91 | the tag is recorded, the cursor resets to 0, the working set is the tag's filter, the collection, theme and daily id are untouched, the state is well formed, and the cursor names a scenario exactly when the working set is non-empty |
| App.FoundIndex | app.js:103-104 | the lookup of a possibly NaN or `null` id is -1 exactly when the id does not occur, and otherwise the first index holding that id |
| App.JumpTo | app.js:103-107 | when the id occurs: filter "all", working set equal to the collection, the shown scenario has the id and is its first occurrence; when it does not: the state is unchanged |
| App.HandleRouting | app.js:99-110 | a fragment whose id is absent from the collection leaves the state unchanged; otherwise the filter is "all", the working set is the collection, and the cursor is on the first scenario with the requested id; the collection, theme and daily id are untouched |
| App.UpdateHash | app.js:112-115 | the state is untouched; with a current scenario the fragment decodes to its id; without one nothing changes |
| App.Init | app.js:64-97 | start-up with no press while the collection loads yields a well-formed state with the loaded theme and collection (an empty collection and no shown scenario when the load fails), fails exactly when the load fails or the daily pick throws, and on success records the daily id, shows the whole collection under "all", and puts the cursor on the first scenario with the fragment's id if it occurs and at 0 otherwise |
| App.NextClick | app.js:196 | only the cursor moves, by `NextIndex`; well-formedness is kept; the fragment then names the shown scenario, or is kept when none is shown |
| App.PrevClick | app.js:197 | only the cursor moves, by `PrevIndex`; well-formedness is kept; the fragment then names the shown scenario, or is kept when none is shown |
| App.DailyClick | app.js:204-207 | when the daily id occurs: filter "all", working set equal to the collection, the cursor is on the first scenario with the daily id, the badge is shown and the fragment decodes to the daily id, while the collection, theme and daily id stay as they were; otherwise nothing changes |
| App.CategoryClick | app.js:208 | the state is the filtered state; the fragment names the first scenario of a non-empty working set and is kept for an empty one |
| App.ThemeClick | app.js:198 | only the theme changes, to its flip |
| App.DispatchPreserves | app.js:195-208 | every button keeps the state well formed, never changes the collection, and never changes the daily id |
| App.NextPrevInverse | app.js:196-197 | on a non-empty working set, previous after next and next after previous restore the state |
| App.NextClicksAdvance | app.js:196 | `k` presses of next change only the cursor, by `k` steps |
| App.NextCycle | app.js:196 | pressing next once per element of the working set restores the state |
| App.SharedLinkReopens | app.js:99-114 | the fragment written for the shown scenario, opened on a fresh start with the same collection, boots without error, clears the filter and shows a scenario with the same id |
| App.TechFilterExample | app.js:84-91 | ids 1..5 tagged tech, society, tech, nature, human: the "tech" pill gives [1, 3], next shows id 3, next again wraps to id 1 |

## Left out

- The service worker (`sw.js`): cache install, the activate-time
  `key !== CACHE_NAME` filter and the network-then-cache fetch are calls
  into the Cache Storage and Fetch APIs.
- Progressive-web-app wiring (app.js:1-28): service-worker registration and
  the install prompt are browser events.
- Rendering: the card markup (app.js:124-157), `toggleDeepDive`,
  `updateCategoryUI`, `updateThemeIcon`, the body class, `scrollTo`, the
  toast and `showErrorState` (reduced to the `failed` flag of `App.Boot`).
  Only the caption and the daily badge test are kept.
- I/O: `fetch`/`response.json()` become the `loaded` argument of `App.Init`
  (None for a failed fetch or parse); `Date.now()` is the `now` argument;
  the stored theme is the `saved` argument, and writing it back is omitted.
- The share button (app.js:199-203): it copies a link with the same
  `#id=` encoding to the clipboard; the clipboard and the toast are out of
  scope.
- App.Init: start-up is taken as one step. The buttons are wired
  (app.js:66) before the collection is awaited (app.js:69), so a press
  while the fetch is pending is not modelled. A theme toggle in that window
  outlives start-up (nothing after it resets the theme, so the final theme
  is the flipped stored one), and before a failed load any press outlives
  it (a category pill leaves its tag instead of "all").
- Scenarios.DateCode: `now / 86400000` is taken as exact floor division of integers,
  not as a double division followed by `Math.floor`.
- JsNumbers.ParseInt: the result is an exact integer; `parseInt` rounds long
  numerals to a double, which cannot change which safe-integer id matches.
  `-0` is returned as 0, which `===` does not distinguish.
- App.Caption: shows the corrected label (`Categories.CategoryName`), so
  for a tag that names an inherited `Object.prototype` member it gives
  "Разное" where the code as written shows that member; the written lookup
  is `Categories.CategoryNameAsWritten` (see Findings), and the two agree on
  every other tag.
- Scenarios.Scenario: `category` is a string; a record without a category
  (`undefined`) matches no category pill and gets the default caption, as
  the tag "undefined" does here.
- Route.Decode: the browser's percent-encoding of `location.hash` is not
  modelled; the fragment is taken as the string the page reads.

## Findings

| source | as written | input that shows it | evidently intended | confidence | as-written member | corrected member |
|---|---|---|---|---|---|---|
| app.js:167-170 | `map[cat] \|\| 'Разное'` looks the tag up on a plain object literal, so names inherited from `Object.prototype` are found and are truthy | a scenario with category "constructor" (or "toString", "valueOf", "__proto__", ...) is captioned with a function's source text, or `[object Object]` for `__proto__`, instead of a label | every tag other than the four known ones gets "Разное" | low: needs such a tag in the data; not executed | Categories.InheritedMemberLeaksThrough | Categories.CategoryName |

=== FILE: App.dfy ===
/** The navigation state of the page (`AppState`) and the handlers that
    change it: start-up (`initApp`), routing, the category, next, previous,
    daily and theme buttons, and the fragment update that follows them.
    Each handler is a pure transition on an immutable record. */
module App {
  import opened JsValues
  import opened Scenarios
  import opened Cursor
  import opened Route
  import opened Theme
  import opened Categories

  /** `AppState`: the full collection, the working set, the cursor, the
      category tag, the theme, and the id of the scenario of the day
      (`null` until it is computed). */
  datatype AppState = AppState(
    scenarios: seq<Scenario>,
    filtered: seq<Scenario>,
    index: Num,
    category: string,
    theme: string,
    dailyId: Option<int>)

  /** The state together with the URL fragment (`window.location.hash`). */
  datatype Page = Page(state: AppState, hash: string)

  /** The outcome of start-up: the page, and whether the error card was shown
      because loading or the daily pick threw. */
  datatype Boot = Boot(page: Page, failed: bool)

  /** The button presses that change navigation state. */
  datatype Event = NextPressed | PrevPressed | DailyPressed | CategoryPressed(tag: string) | ThemePressed

  /** `filteredScenarios[currentIndex]`: undefined (None) for a NaN or
      out-of-range cursor. */
  function Current(st: AppState): (r: Option<Scenario>)
    ensures r.Some? <==> InBounds(st.index, |st.filtered|)
    ensures r.Some? ==> r.value == st.filtered[st.index.value]
  {
    if InBounds(st.index, |st.filtered|) then Some(st.filtered[st.index.value]) else None
  }

  /** The working set is the filter of the collection by the current tag,
      and the cursor names one of its elements whenever it has any. */
  predicate WellFormed(st: AppState) {
    && st.filtered == FilterBy(st.scenarios, st.category)
    && (|st.filtered| == 0 || InBounds(st.index, |st.filtered|))
  }

  /** The "scenario of the day" badge test `s.id === AppState.dailyScenarioId`
      on the scenario being shown; a `null` daily id matches nothing. */
  function IsDaily(st: AppState): (b: bool)
    ensures b <==> Current(st).Some? && st.dailyId == Some(Current(st).value.id)
  {
    match Current(st)
    case None => false
    case Some(s) => st.dailyId == Some(s.id)
  }

  /** The category line above the card, `getCategoryName(s.category)` of
      the scenario being shown (nothing is rendered without one). */
  function Caption(st: AppState): (r: Option<string>)
    ensures r.Some? <==> Current(st).Some?
    ensures r.Some? ==> r.value == DefaultLabel || r.value in CategoryLabels.Values
    ensures r.Some? && Current(st).value.category !in CategoryLabels ==> r.value == DefaultLabel
    ensures r.Some? && Current(st).value.category !in InheritedMembers ==>
      CategoryNameAsWritten(Current(st).value.category) == Label(r.value)
  {
    match Current(st)
    case None => None
    case Some(s) => Some(CategoryName(s.category))
  }

  /** `filterScenarios(category)`. */
  function FilterScenarios(st: AppState, category: string): (r: AppState)
    ensures r.category == category && r.index == Int(0)
    ensures r.filtered == FilterBy(st.scenarios, category)
    ensures r.scenarios == st.scenarios && r.theme == st.theme && r.dailyId == st.dailyId
    ensures WellFormed(r)
    ensures Current(r).Some? <==> |r.filtered| > 0
  {
    st.(category := category, filtered := FilterBy(st.scenarios, category), index := Int(0))
  }

  /** `scenarios.findIndex(s => s.id === id)` where the id may be NaN or
      `null`, which equal no id. */
  function FoundIndex(scenarios: seq<Scenario>, target: Option<int>): (r: int)
    ensures -1 <= r < |scenarios|
    ensures r == -1 <==> !Occurs(scenarios, target)
    ensures r >= 0 ==> scenarios[r].id == target.value
    ensures r >= 0 ==> forall j :: 0 <= j < r ==> scenarios[j].id != target.value
  {
    match target
    case None => -1
    case Some(k) => FindIndex(scenarios, k)
  }

  predicate Occurs(scenarios: seq<Scenario>, target: Option<int>) {
    target.Some? && exists j :: 0 <= j < |scenarios| && scenarios[j].id == target.value
  }

  /** The jump shared by routing and the daily button: when the id occurs in
      the full collection, clear the filter and put the cursor on its first
      occurrence; otherwise change nothing. */
  function JumpTo(st: AppState, target: Option<int>): (r: AppState)
    ensures Occurs(st.scenarios, target) ==>
      && r.category == All
      && r.filtered == st.scenarios
      && Current(r).Some? && Current(r).value.id == target.value
      && (forall j :: 0 <= j < r.index.value ==> st.scenarios[j].id != target.value)
    ensures !Occurs(st.scenarios, target) ==> r == st
    ensures r.scenarios == st.scenarios && r.theme == st.theme && r.dailyId == st.dailyId
    ensures WellFormed(st) ==> WellFormed(r)
  {
    var found := FoundIndex(st.scenarios, target);
    if found != -1 then
      FilterScenarios(st, All).(index := Int(found))
    else st
  }

  /** `handleRouting`: jump to the id the fragment asks for, if any. */
  function HandleRouting(st: AppState, hash: string): (r: AppState)
    ensures !Occurs(st.scenarios, Decode(hash)) ==> r == st
    ensures Occurs(st.scenarios, Decode(hash)) ==>
      && r.category == All
      && r.filtered == st.scenarios
      && Current(r).Some? && Current(r).value.id == Decode(hash).value
      && (forall j :: 0 <= j < r.index.value ==> st.scenarios[j].id != Decode(hash).value)
    ensures r.scenarios == st.scenarios && r.theme == st.theme && r.dailyId == st.dailyId
  {
    JumpTo(st, Decode(hash))
  }

  /** `updateHash`: write `#id=<id>` of the current scenario, if there is one. */
  function UpdateHash(p: Page): (r: Page)
    ensures r.state == p.state
    ensures Current(p.state).Some? ==> Decode(r.hash) == Some(Current(p.state).value.id)
    ensures Current(p.state).None? ==> r == p
  {
    match Current(p.state)
    case None => p
    case Some(s) =>
      DecodeEncode(s.id);
      Page(p.state, Encode(s.id))
  }

  /** `initApp`: load the theme, load the collection and show all of it,
      pick the scenario of the day, then follow the fragment. A failed load
      (None) or a throwing daily pick ends in the error card with the state
      reached so far. */
  function Init(saved: Option<string>, loaded: Option<seq<Scenario>>, now: int, hash: string): (r: Boot)
    ensures WellFormed(r.page.state) && r.page.hash == hash
    ensures r.page.state.theme == LoadTheme(saved)
    ensures r.failed <==> loaded.None? || DailyId(loaded.value, now).None?
    ensures loaded.Some? ==> r.page.state.scenarios == loaded.value
    ensures loaded.None? ==> r.page.state.scenarios == [] && Current(r.page.state).None?
    ensures !r.failed ==> r.page.state.dailyId == DailyId(loaded.value, now)
    ensures r.failed ==> r.page.state.dailyId.None? && r.page.state.category == All && r.page.state.index == Int(0)
    ensures !r.failed && !Occurs(loaded.value, Decode(hash)) ==>
      && r.page.state.category == All
      && r.page.state.filtered == loaded.value
      && r.page.state.index == Int(0)
    ensures !r.failed && Occurs(loaded.value, Decode(hash)) ==>
      && r.page.state.category == All
      && r.page.state.filtered == loaded.value
      && Current(r.page.state).Some? && Current(r.page.state).value.id == Decode(hash).value
      && (forall j :: 0 <= j < r.page.state.index.value ==> loaded.value[j].id != Decode(hash).value)
  {
    var blank := AppState([], [], Int(0), All, LoadTheme(saved), None);
    match loaded
    case None => Boot(Page(blank, hash), true)
    case Some(s) =>
      var shown := FilterScenarios(blank.(scenarios := s), All);
      match DailyId(s, now)
      case None => Boot(Page(shown, hash), true)
      case Some(id) => Boot(Page(HandleRouting(shown.(dailyId := Some(id)), hash), hash), false)
  }

  /** The next button. */
  function NextClick(p: Page): (r: Page)
    ensures r.state == p.state.(index := NextIndex(p.state.index, |p.state.filtered|))
    ensures WellFormed(p.state) ==> WellFormed(r.state)
    ensures Current(r.state).Some? ==> Decode(r.hash) == Some(Current(r.state).value.id)
    ensures Current(r.state).None? ==> r.hash == p.hash
  {
    UpdateHash(Page(p.state.(index := NextIndex(p.state.index, |p.state.filtered|)), p.hash))
  }

  /** The previous button. */
  function PrevClick(p: Page): (r: Page)
    ensures r.state == p.state.(index := PrevIndex(p.state.index, |p.state.filtered|))
    ensures WellFormed(p.state) ==> WellFormed(r.state)
    ensures Current(r.state).Some? ==> Decode(r.hash) == Some(Current(r.state).value.id)
    ensures Current(r.state).None? ==> r.hash == p.hash
  {
    UpdateHash(Page(p.state.(index := PrevIndex(p.state.index, |p.state.filtered|)), p.hash))
  }

  /** The daily button: jump to the scenario of the day and write its
      fragment; nothing at all happens when the id is missing or `null`. */
  function DailyClick(p: Page): (r: Page)
    ensures Occurs(p.state.scenarios, p.state.dailyId) ==>
      && r.state.category == All && r.state.filtered == p.state.scenarios
      && IsDaily(r.state) && Decode(r.hash) == p.state.dailyId
      && (forall j :: 0 <= j < r.state.index.value ==> p.state.scenarios[j].id != p.state.dailyId.value)
    ensures !Occurs(p.state.scenarios, p.state.dailyId) ==> r == p
    ensures r.state.scenarios == p.state.scenarios && r.state.theme == p.state.theme && r.state.dailyId == p.state.dailyId
    ensures WellFormed(p.state) ==> WellFormed(r.state)
  {
    if FoundIndex(p.state.scenarios, p.state.dailyId) != -1 then
      UpdateHash(Page(JumpTo(p.state, p.state.dailyId), p.hash))
    else p
  }

  /** A category pill. */
  function CategoryClick(p: Page, tag: string): (r: Page)
    ensures r.state == FilterScenarios(p.state, tag)
    ensures |r.state.filtered| > 0 ==> Decode(r.hash) == Some(r.state.filtered[0].id)
    ensures |r.state.filtered| == 0 ==> r.hash == p.hash
  {
    UpdateHash(Page(FilterScenarios(p.state, tag), p.hash))
  }

  /** The theme button (the stored copy and the body class are left out). */
  function ThemeClick(p: Page): (r: Page)
    ensures r.state.theme == ToggleTheme(p.state.theme)
    ensures r.state.(theme := p.state.theme) == p.state && r.hash == p.hash
  {
    Page(p.state.(theme := ToggleTheme(p.state.theme)), p.hash)
  }

  function Dispatch(p: Page, e: Event): Page {
    match e
    case NextPressed => NextClick(p)
    case PrevPressed => PrevClick(p)
    case DailyPressed => DailyClick(p)
    case CategoryPressed(tag) => CategoryClick(p, tag)
    case ThemePressed => ThemeClick(p)
  }

  /** Every button keeps the state well formed, never touches the
      collection, and never changes the scenario of the day. */
  lemma DispatchPreserves(p: Page, e: Event)
    requires WellFormed(p.state)
    ensures WellFormed(Dispatch(p, e).state)
    ensures Dispatch(p, e).state.scenarios == p.state.scenarios
    ensures Dispatch(p, e).state.dailyId == p.state.dailyId
  {
  }

  /** Previous undoes next, and next undoes previous, on a non-empty working set. */
  lemma NextPrevInverse(p: Page)
    requires WellFormed(p.state) && |p.state.filtered| > 0
    ensures PrevClick(NextClick(p)).state == p.state
    ensures NextClick(PrevClick(p)).state == p.state
  {
    PrevAfterNext(p.state.index.value, |p.state.filtered|);
    NextAfterPrev(p.state.index.value, |p.state.filtered|);
  }

  /** The page after `k` presses of next. */
  function NextClicks(p: Page, k: nat): Page {
    if k == 0 then p else NextClick(NextClicks(p, k - 1))
  }

  /** `k` presses of next only move the cursor, `k` steps of `NextIndex`. */
  lemma {:induction false} NextClicksAdvance(p: Page, k: nat)
    ensures NextClicks(p, k).state == p.state.(index := Advance(p.state.index, |p.state.filtered|, k))
  {
    if k > 0 {
      NextClicksAdvance(p, k - 1);
    }
  }

  /** Pressing next once per element of the working set comes back to the
      starting state. */
  lemma NextCycle(p: Page)
    requires WellFormed(p.state) && |p.state.filtered| > 0
    ensures NextClicks(p, |p.state.filtered|).state == p.state
  {
    NextClicksAdvance(p, |p.state.filtered|);
    AdvanceFullCycle(p.state.index.value, |p.state.filtered|);
  }

  /** A link written for the scenario on screen reopens that scenario: a
      fresh start-up with the same collection and that fragment shows a
      scenario with the same id, with the filter cleared. */
  lemma SharedLinkReopens(p: Page, saved: Option<string>, now: int)
    requires WellFormed(p.state) && Current(p.state).Some? && now >= 0
    ensures
      var b := Init(saved, Some(p.state.scenarios), now, Encode(Current(p.state).value.id));
      && !b.failed
      && b.page.state.category == All
      && Current(b.page.state).Some?
      && Current(b.page.state).value.id == Current(p.state).value.id
  {
    var s := Current(p.state).value;
    DecodeEncode(s.id);
    assert s in p.state.scenarios;
    var j :| 0 <= j < |p.state.scenarios| && p.state.scenarios[j] == s;
    assert Occurs(p.state.scenarios, Some(s.id));
  }

  /** The worked example: ids 1..5 tagged tech, society, tech, nature,
      human; the "tech" pill gives the working set [1, 3]; next moves to
      id 3 and next again wraps to id 1. */
  lemma TechFilterExample(theme: string, hash: string)
    ensures
      var st := ExampleStart(theme);
      var p1 := CategoryClick(Page(st, hash), "tech");
      var p2 := NextClick(p1);
      var p3 := NextClick(p2);
      && p1.state.filtered == [Scenario(1, "tech"), Scenario(3, "tech")]
      && p2.state.index == Int(1) && Current(p2.state) == Some(Scenario(3, "tech"))
      && p3.state.index == Int(0) && Current(p3.state) == Some(Scenario(1, "tech"))
  {
    var tech := [Scenario(1, "tech"), Scenario(3, "tech")];
    var st := ExampleStart(theme);
    var p1 := CategoryClick(Page(st, hash), "tech");
    ExampleTechMatching();
    assert p1.state.filtered == tech && p1.state.index == Int(0);
    ExampleCursorSteps();
  }

  lemma ExampleCursorSteps()
    ensures NextIndex(Int(0), 2) == Int(1) && NextIndex(Int(1), 2) == Int(0)
  {
  }

  lemma ExampleTechMatching()
    ensures Matching(ExampleCollection(), "tech") == [Scenario(1, "tech"), Scenario(3, "tech")]
  {
    var s1, s2, s3, s4, s5 := Scenario(1, "tech"), Scenario(2, "society"), Scenario(3, "tech"), Scenario(4, "nature"), Scenario(5, "human");
    MatchingCons(s5, [], "tech");
    MatchingCons(s4, [s5], "tech");
    MatchingCons(s3, [s4, s5], "tech");
    MatchingCons(s2, [s3, s4, s5], "tech");
    MatchingCons(s1, [s2, s3, s4, s5], "tech");
  }

  /** The state right after start-up on the example collection, with no
      daily id yet and no fragment. */
  function ExampleStart(theme: string): (st: AppState)
    ensures WellFormed(st) && Current(st) == Some(Scenario(1, "tech"))
  {
    AppState(ExampleCollection(), ExampleCollection(), Int(0), All, theme, None)
  }

  function ExampleCollection(): seq<Scenario> {
    [Scenario(1, "tech"), Scenario(2, "society"), Scenario(3, "tech"), Scenario(4, "nature"), Scenario(5, "human")]
  }
}

=== FILE: Categories.dfy ===
/** The display label of a category tag (`getCategoryName`), as the source
    writes it and as it is evidently meant. */
module Categories {

  /** The own properties of the label object literal. */
  const CategoryLabels: map<string, string> :=
    map["tech" := "Технологии", "society" := "Общество", "nature" := "Природа", "human" := "Человек"]

  const DefaultLabel: string := "Разное"

  /** Property names every plain object inherits from `Object.prototype`.
      Looking one of them up on the label object yields a function (or, for
      `__proto__`, the prototype object), and both are truthy. */
  const InheritedMembers: set<string> := {
    "constructor", "hasOwnProperty", "isPrototypeOf", "propertyIsEnumerable",
    "toLocaleString", "toString", "valueOf", "__proto__",
    "__defineGetter__", "__defineSetter__", "__lookupGetter__", "__lookupSetter__"
  }

  /** What `map[cat] || 'Разное'` evaluates to: a label string, or a member
      inherited from `Object.prototype`. */
  datatype LookupValue = Label(text: string) | InheritedMember(name: string)

  /** `getCategoryName` as written: a property lookup on an object literal,
      which also finds inherited members, then `||` with the default. */
  function CategoryNameAsWritten(cat: string): (r: LookupValue)
    ensures cat in CategoryLabels ==> r == Label(CategoryLabels[cat])
    ensures r.InheritedMember? <==> cat in InheritedMembers
  {
    if cat in CategoryLabels then Label(CategoryLabels[cat])
    else if cat in InheritedMembers then InheritedMember(cat)
    else Label(DefaultLabel)
  }

  /** `getCategoryName` as intended: the four known tags have their own
      label, every other tag gets the default. */
  function CategoryName(cat: string): (name: string)
    ensures cat in CategoryLabels <==> name != DefaultLabel
    ensures name == DefaultLabel || name in CategoryLabels.Values
  {
    if cat in CategoryLabels then CategoryLabels[cat] else DefaultLabel
  }

  /** The four fixed labels, and the default for anything else. */
  lemma CategoryNameTable(cat: string)
    ensures CategoryName("tech") == "Технологии"
    ensures CategoryName("society") == "Общество"
    ensures CategoryName("nature") == "Природа"
    ensures CategoryName("human") == "Человек"
    ensures cat !in {"tech", "society", "nature", "human"} ==> CategoryName(cat) == DefaultLabel
  {
  }

  /** The written lookup and the intended one agree on every tag that is not
      an inherited member name. */
  lemma AsWrittenAgreesOffInherited(cat: string)
    requires cat !in InheritedMembers
    ensures CategoryNameAsWritten(cat) == Label(CategoryName(cat))
  {
  }

  /** A scenario tagged "constructor" is labelled with the `Object`
      constructor function instead of the default label. */
  lemma InheritedMemberLeaksThrough()
    ensures CategoryNameAsWritten("constructor") == InheritedMember("constructor")
    ensures CategoryName("constructor") == DefaultLabel
  {
    assert "constructor" in InheritedMembers;
  }
}

=== FILE: Cursor.dfy ===
/** The cyclic cursor moves of the next and previous buttons, as the Number
    arithmetic they are written in: `(i + 1) % n` and `(i - 1 + n) % n`,
    where `n` is the length of the filtered list. */
module Cursor {
  import opened JsValues

  /** True when the cursor names an element of a list of length `n`. */
  predicate InBounds(i: Num, n: nat) {
    i.Int? && 0 <= i.value < n
  }

  /** The next button: `(currentIndex + 1) % filteredScenarios.length`. */
  function NextIndex(i: Num, n: nat): (r: Num)
    ensures InBounds(i, n) ==> InBounds(r, n)
    ensures n == 0 || i.NaN? ==> r.NaN?
  {
    RemNum(Add(i, 1), n)
  }

  /** The previous button: `(currentIndex - 1 + filteredScenarios.length) % filteredScenarios.length`. */
  function PrevIndex(i: Num, n: nat): (r: Num)
    ensures InBounds(i, n) ==> InBounds(r, n)
    ensures n == 0 || i.NaN? ==> r.NaN?
  {
    RemNum(Add(Add(i, -1), n), n)
  }

  /** Going back after going forward returns to the same element. */
  lemma PrevAfterNext(i: int, n: nat)
    requires 0 <= i < n
    ensures PrevIndex(NextIndex(Int(i), n), n) == Int(i)
  {
    if i + 1 < n {
      ModUnique(i + 1, 0, n, i + 1);
      ModUnique(i + n, 1, n, i);
    } else {
      ModUnique(n, 1, n, 0);
      ModUnique(n - 1, 0, n, n - 1);
    }
  }

  /** Going forward after going back returns to the same element. */
  lemma NextAfterPrev(i: int, n: nat)
    requires 0 <= i < n
    ensures NextIndex(PrevIndex(Int(i), n), n) == Int(i)
  {
    if i > 0 {
      ModUnique(i - 1 + n, 1, n, i - 1);
      ModUnique(i, 0, n, i);
    } else {
      ModUnique(n - 1, 0, n, n - 1);
      ModUnique(n, 1, n, 0);
    }
  }

  /** The cursor after `k` presses of the next button. */
  function Advance(i: Num, n: nat, k: nat): Num {
    if k == 0 then i else NextIndex(Advance(i, n, k - 1), n)
  }

  /** `k` presses of next move an in-range cursor `k` places forward, modulo `n`. */
  lemma {:induction false} AdvanceIsModular(i: int, n: nat, k: nat)
    requires 0 <= i < n
    ensures Advance(Int(i), n, k) == Int((i + k) % n)
  {
    if k == 0 {
      ModUnique(i, 0, n, i);
    } else {
      AdvanceIsModular(i, n, k - 1);
      NextOfRemainder(i + k - 1, n);
    }
  }

  /** One press of next on the remainder of `a` gives the remainder of `a + 1`. */
  lemma NextOfRemainder(a: nat, n: nat)
    requires n > 0
    ensures NextIndex(Int(a % n), n) == Int((a + 1) % n)
  {
    ModSucc(a, n);
  }

  /** `n` presses of next bring the cursor back to where it started. */
  lemma AdvanceFullCycle(i: int, n: nat)
    requires 0 <= i < n
    ensures Advance(Int(i), n, n) == Int(i)
  {
    AdvanceIsModular(i, n, n);
    ModUnique(i + n, 1, n, i);
  }
}

=== FILE: JsNumbers.dfy ===
/** The two conversions between integers and strings that the route codec
    relies on: the global `parseInt` with its radix left undefined
    (section 19.2.5 of ECMA-262), and Number-to-string for integer ids. */
module JsNumbers {
  import opened JsValues

  /** The characters `parseInt` trims from the front: ECMAScript WhiteSpace
      (TAB, VT, FF, ZWNBSP and every Zs space separator) and LineTerminator. */
  predicate IsStrWhiteSpace(c: char) {
    || c == '\t' || c == '\U{000B}' || c == '\U{000C}' || c == '\U{FEFF}'
    || c == ' ' || c == '\U{00A0}' || c == '\U{1680}'
    || ('\U{2000}' <= c <= '\U{200A}')
    || c == '\U{202F}' || c == '\U{205F}' || c == '\U{3000}'
    || c == '\n' || c == '\r' || c == '\U{2028}' || c == '\U{2029}'
  }

  predicate IsDecimalDigit(c: char) {
    '0' <= c <= '9'
  }

  /** A digit of radix 10 or 16 (letters in either case). */
  predicate IsDigitIn(c: char, radix: nat) {
    if radix == 16 then IsDecimalDigit(c) || 'a' <= c <= 'f' || 'A' <= c <= 'F'
    else IsDecimalDigit(c)
  }

  function DigitValue(c: char): (v: nat)
    ensures IsDecimalDigit(c) ==> v < 10
    ensures IsDigitIn(c, 16) ==> v < 16
  {
    if IsDecimalDigit(c) then c as int - '0' as int
    else if 'a' <= c <= 'f' then c as int - 'a' as int + 10
    else if 'A' <= c <= 'F' then c as int - 'A' as int + 10
    else 0
  }

  /** The input with its leading white space removed. */
  function TrimStart(s: string): (r: string)
    ensures |r| <= |s|
    ensures r == [] || !IsStrWhiteSpace(r[0])
    ensures forall i :: 0 <= i < |s| - |r| ==> IsStrWhiteSpace(s[i])
  {
    if |s| > 0 && IsStrWhiteSpace(s[0]) then TrimStart(s[1..]) else s
  }

  lemma {:induction false} TrimStartIsSuffix(s: string)
    ensures TrimStart(s) == s[|s| - |TrimStart(s)|..]
  {
    if |s| > 0 && IsStrWhiteSpace(s[0]) {
      TrimStartIsSuffix(s[1..]);
    }
  }

  /** The longest prefix of `s` made of digits of the given radix. */
  function DigitPrefix(s: string, radix: nat): (z: string)
    ensures |z| <= |s| && z == s[..|z|]
    ensures forall i :: 0 <= i < |z| ==> IsDigitIn(z[i], radix)
    ensures |z| == |s| || !IsDigitIn(s[|z|], radix)
  {
    if |s| > 0 && IsDigitIn(s[0], radix) then [s[0]] + DigitPrefix(s[1..], radix) else []
  }

  /** The value of a digit string, most significant digit first. */
  function DigitsValue(z: string, radix: nat): nat {
    if z == [] then 0 else DigitsValue(z[..|z| - 1], radix) * radix + DigitValue(z[|z| - 1])
  }

  /** Steps after the sign: a "0x"/"0X" prefix selects radix 16, then the
      longest run of digits of that radix is read; an empty run is NaN. */
  function ParseMagnitude(s: string): (r: Option<nat>)
    ensures r.Some? ==> s != [] && IsDecimalDigit(s[0])
  {
    var hex := |s| >= 2 && s[0] == '0' && (s[1] == 'x' || s[1] == 'X');
    var radix := if hex then 16 else 10;
    var z := DigitPrefix(if hex then s[2..] else s, radix);
    if z == [] then None else Some(DigitsValue(z, radix))
  }

  /** Applies the sign read before the magnitude; NaN stays NaN. */
  function Signed(negative: bool, m: Option<nat>): (r: Option<int>)
    ensures r.Some? <==> m.Some?
  {
    match m
    case None => None
    case Some(v) => if negative then Some(-(v as int)) else Some(v)
  }

  /** `parseInt(input)` with no radix. None stands for NaN. A parsed `-0`
      is returned as 0: the only use of the result is a `===` comparison
      with an id, and `-0 === 0`. */
  function ParseInt(input: string): (r: Option<int>)
    ensures r.Some? ==> HasLeadingDigit(input)
  {
    var s := TrimStart(input);
    var negative := |s| > 0 && s[0] == '-';
    Signed(negative, ParseMagnitude(Unsigned(s)))
  }

  /** The text after one optional sign character. */
  function Unsigned(s: string): (u: string)
    ensures |u| <= |s|
    ensures s != [] && (s[0] == '+' || s[0] == '-') <==> |u| < |s|
  {
    if |s| > 0 && (s[0] == '+' || s[0] == '-') then s[1..] else s
  }

  /** After the leading white space and an optional sign comes a decimal
      digit: the only shape of input `parseInt` reads a number from. */
  predicate HasLeadingDigit(input: string) {
    var u := Unsigned(TrimStart(input));
    u != [] && IsDecimalDigit(u[0])
  }

  /** parseInt yields a number only when its input contains a decimal digit
      (even a hexadecimal literal starts with the digit 0). */
  lemma ParseIntNeedsDigit(input: string)
    requires forall i :: 0 <= i < |input| ==> !IsDecimalDigit(input[i])
    ensures ParseInt(input).None?
  {
    TrimStartIsSuffix(input);
  }

  function DecimalDigit(d: nat): (c: char)
    requires d < 10
    ensures IsDecimalDigit(c) && DigitValue(c) == d
  {
    ('0' as int + d) as char
  }

  /** The decimal numeral of a natural number, without leading zeros. */
  function NatToDecimal(n: nat): (d: string)
    ensures |d| >= 1
    ensures forall i :: 0 <= i < |d| ==> IsDecimalDigit(d[i])
    ensures d[0] == '0' <==> n == 0
    ensures n == 0 ==> d == "0"
  {
    if n < 10 then [DecimalDigit(n)] else NatToDecimal(n / 10) + [DecimalDigit(n % 10)]
  }

  /** Number-to-string for an integer value, as a template literal prints an
      id: an optional minus sign and the decimal numeral. */
  function ToDecimal(k: int): (s: string)
    ensures |s| >= 1
    ensures s[0] == '-' <==> k < 0
    ensures k < 0 ==> s[1..] == NatToDecimal(-k)
    ensures k >= 0 ==> s == NatToDecimal(k)
  {
    if k < 0 then "-" + NatToDecimal(-k) else NatToDecimal(k)
  }

  /** Reading back a numeral gives the number it was printed from. */
  lemma {:induction false} NatToDecimalValue(n: nat)
    ensures DigitsValue(NatToDecimal(n), 10) == n
  {
    if n >= 10 {
      var d := NatToDecimal(n);
      var front := NatToDecimal(n / 10);
      assert d == front + [DecimalDigit(n % 10)];
      assert d[..|d| - 1] == front;
      NatToDecimalValue(n / 10);
    }
  }

  /** A maximal digit run stops exactly at the end of a digit string when
      the next character is not a digit. */
  lemma {:induction false} DigitPrefixStopsAtJunk(z: string, t: string, radix: nat)
    requires forall i :: 0 <= i < |z| ==> IsDigitIn(z[i], radix)
    requires t == [] || !IsDigitIn(t[0], radix)
    ensures DigitPrefix(z + t, radix) == z
  {
    if z != [] {
      assert (z + t)[0] == z[0];
      assert (z + t)[1..] == z[1..] + t;
      DigitPrefixStopsAtJunk(z[1..], t, radix);
    } else {
      assert z + t == t;
    }
  }

  /** parseInt reads back any integer printed in decimal, and ignores what
      follows the numeral, provided the next character is not a digit and
      does not turn a lone "0" into the hexadecimal prefix "0x". */
  lemma ParseIntIgnoresTrailing(k: int, t: string)
    requires t == [] || !IsDecimalDigit(t[0])
    requires !(k == 0 && t != [] && (t[0] == 'x' || t[0] == 'X'))
    ensures ParseInt(ToDecimal(k) + t) == Some(k)
  {
    if k < 0 {
      NegativeNumeral(-k, t);
    } else {
      NonNegativeNumeral(k, t);
    }
  }

  lemma NegativeNumeral(n: nat, t: string)
    requires n > 0 && (t == [] || !IsDecimalDigit(t[0]))
    ensures ParseInt(ToDecimal(-(n as int)) + t) == Some(-(n as int))
  {
    ParseMagnitudeOfNumeral(n, t);
    ParseIntNegative(NatToDecimal(n) + t);
    MinusNumeral(n, t);
  }

  /** Kept apart from `NegativeNumeral` so that each proof stays small. */
  lemma MinusNumeral(n: nat, t: string)
    requires n > 0
    ensures ToDecimal(-(n as int)) + t == "-" + (NatToDecimal(n) + t)
  {
  }

  lemma NonNegativeNumeral(n: nat, t: string)
    requires t == [] || !IsDecimalDigit(t[0])
    requires !(n == 0 && t != [] && (t[0] == 'x' || t[0] == 'X'))
    ensures ParseInt(ToDecimal(n) + t) == Some(n)
  {
    var body := NatToDecimal(n) + t;
    ParseMagnitudeOfNumeral(n, t);
    ParseIntUnsigned(body);
  }

  /** A leading minus sign negates the magnitude that follows it. */
  lemma ParseIntNegative(body: string)
    ensures ParseInt("-" + body) == Signed(true, ParseMagnitude(body))
  {
    var s := "-" + body;
    TrimStartKeepsNonSpace(s);
    assert s[1..] == body;
  }

  /** Input that starts with a digit is read as an unsigned magnitude. */
  lemma ParseIntUnsigned(s: string)
    requires s != [] && IsDecimalDigit(s[0])
    ensures ParseInt(s) == Signed(false, ParseMagnitude(s))
  {
    TrimStartKeepsNonSpace(s);
  }

  lemma TrimStartKeepsNonSpace(s: string)
    requires s == [] || !IsStrWhiteSpace(s[0])
    ensures TrimStart(s) == s
  {
  }

  /** The unsigned part of a decimal numeral followed by junk reads back as
      the number. */
  lemma ParseMagnitudeOfNumeral(n: nat, t: string)
    requires t == [] || !IsDecimalDigit(t[0])
    requires !(n == 0 && t != [] && (t[0] == 'x' || t[0] == 'X'))
    ensures ParseMagnitude(NatToDecimal(n) + t) == Some(n)
  {
    var digits := NatToDecimal(n);
    var s := digits + t;
    assert s[0] == digits[0];
    assert !(|s| >= 2 && s[0] == '0' && (s[1] == 'x' || s[1] == 'X')) by {
      if |s| >= 2 && s[0] == '0' {
        assert digits == "0";
        assert s[1] == t[0];
      }
    }
    DigitPrefixStopsAtJunk(digits, t, 10);
    NatToDecimalValue(n);
  }

  /** Decode after encode is the identity on integers. */
  lemma ParseIntRoundTrip(k: int)
    ensures ParseInt(ToDecimal(k)) == Some(k)
  {
    ParseIntIgnoresTrailing(k, []);
    assert ToDecimal(k) + [] == ToDecimal(k);
  }

  /** Leading white space never changes what parseInt reads. */
  lemma {:induction false} ParseIntSkipsWhiteSpace(ws: string, s: string)
    requires forall i :: 0 <= i < |ws| ==> IsStrWhiteSpace(ws[i])
    ensures ParseInt(ws + s) == ParseInt(s)
  {
    TrimStartSkipsWhiteSpace(ws, s);
  }

  lemma {:induction false} TrimStartSkipsWhiteSpace(ws: string, s: string)
    requires forall i :: 0 <= i < |ws| ==> IsStrWhiteSpace(ws[i])
    ensures TrimStart(ws + s) == TrimStart(s)
  {
    if ws == [] {
      assert ws + s == s;
    } else {
      assert (ws + s)[0] == ws[0];
      assert (ws + s)[1..] == ws[1..] + s;
      TrimStartSkipsWhiteSpace(ws[1..], s);
    }
  }

  /** Without a radix argument, a leading "0x" switches parseInt to base 16. */
  lemma ParseIntHexPrefix()
    ensures ParseInt("0x1A") == Some(26)
    ensures ParseInt("-0x10") == Some(-16)
    ensures ParseInt("0x") == None
  {
    HexMagnitudes();
    ParseIntUnsigned("0x1A");
    ParseIntUnsigned("0x");
    NegativeHex();
  }

  lemma NegativeHex()
    ensures ParseInt("-0x10") == Some(-16)
  {
    HexMagnitudes();
    ParseIntNegative("0x10");
    assert "-" + "0x10" == "-0x10";
  }

  lemma HexMagnitudes()
    ensures ParseMagnitude("0x1A") == Some(26)
    ensures ParseMagnitude("0x10") == Some(16)
    ensures ParseMagnitude("0x") == None
  {
    assert "0x1A"[2..] == "1A";
    assert "0x10"[2..] == "10";
    assert "0x"[2..] == [];
    HexDigits("1A", 26);
    HexDigits("10", 16);
  }

  lemma HexDigits(z: string, v: nat)
    requires |z| == 2 && IsDigitIn(z[0], 16) && IsDigitIn(z[1], 16)
    requires DigitValue(z[0]) * 16 + DigitValue(z[1]) == v
    ensures DigitPrefix(z, 16) == z && DigitsValue(z, 16) == v
  {
    DigitPrefixStopsAtJunk(z, [], 16);
    assert z + [] == z;
    var front := z[..1];
    assert z[..|z| - 1] == front;
    assert front[..0] == [];
    assert DigitsValue(front, 16) == DigitValue(z[0]);
  }
}

=== FILE: JsValues.dfy ===
/** The slice of JavaScript's value space that the navigation state holds:
    values that may be `null`/`undefined`, and Numbers that are either
    integers or NaN, with the language's truncating `%`. */
module JsValues {

  /** A value that may be absent (`null`, `undefined`, or NaN where only a
      number would have matched). */
  datatype Option<T> = None | Some(value: T)

  /** An integer-valued Number or NaN: the values `currentIndex` can hold. */
  datatype Num = Int(value: int) | NaN

  /** JavaScript's `%` on integers with a positive divisor: it truncates
      toward zero, so the result carries the sign of the dividend (unlike
      Dafny's Euclidean `%`). */
  function Rem(a: int, b: int): (r: int)
    requires b > 0
    ensures -b < r < b
    ensures a >= 0 ==> 0 <= r
    ensures a <= 0 ==> r <= 0
    ensures a >= 0 ==> r == a % b
    ensures (a - r) % b == 0
  {
    if a >= 0 then
      ModUnique(a - a % b, a / b, b, 0);
      a % b
    else
      ModUnique(a + (-a) % b, -((-a) / b), b, 0);
      -((-a) % b)
  }

  /** Number `+` with an integer: NaN absorbs. */
  function Add(x: Num, k: int): (r: Num)
    ensures r.NaN? <==> x.NaN?
    ensures x.Int? ==> r.value - x.value == k
  {
    match x
    case NaN => NaN
    case Int(v) => Int(v + k)
  }

  /** Number `%` by an array length `n`: NaN when either side is NaN or `n` is 0. */
  function RemNum(x: Num, n: nat): (r: Num)
    ensures r.Int? <==> x.Int? && n > 0
    ensures r.Int? ==> -(n as int) < r.value < n
    ensures r.Int? && x.value >= 0 ==> r.value == x.value % n
    ensures r.Int? && x.value <= 0 ==> r.value <= 0
    ensures r.Int? ==> (x.value - r.value) % n == 0
  {
    match x
    case NaN => NaN
    case Int(v) => if n == 0 then NaN else Int(Rem(v, n))
  }

  /** The remainder is the only value in `[0, n)` that differs from `x` by a multiple of `n`. */
  lemma ModUnique(x: int, q: int, n: int, r: int)
    requires n > 0 && 0 <= r < n && x == q * n + r
    ensures x % n == r
  {
    var q' := x / n;
    var r' := x % n;
    var d := q - q';
    assert d * n == r' - r by {
      assert x == q' * n + r';
      assert q * n - q' * n == (q - q') * n;
    }
    if d > 0 {
      MulAtLeast(d, n);
    } else if d < 0 {
      MulAtLeast(-d, n);
    }
  }

  lemma MulAtLeast(d: int, n: int)
    requires d >= 1 && n > 0
    ensures d * n >= n
  {
    assert d * n == (d - 1) * n + n;
    assert (d - 1) * n >= 0;
  }

  /** Adding one before or after reducing modulo `n` gives the same remainder. */
  lemma ModSucc(a: int, n: int)
    requires n > 0
    ensures (a % n + 1) % n == (a + 1) % n
  {
    var q := a / n;
    var r := a % n;
    if r + 1 < n {
      ModUnique(a + 1, q, n, r + 1);
      ModUnique(r + 1, 0, n, r + 1);
    } else {
      ModUnique(a + 1, q + 1, n, 0);
      ModUnique(n, 1, n, 0);
    }
  }
}

=== FILE: Route.dfy ===
/** The URL-fragment codec: `updateHash` writes `#id=<id>`, and
    `handleRouting` reads a fragment back with `parseInt`. */
module Route {
  import opened JsValues
  import opened JsNumbers

  const IdPrefix: string := "#id="

  predicate StartsWith(s: string, prefix: string) {
    |prefix| <= |s| && s[..|prefix|] == prefix
  }

  /** The fragment `updateHash` writes for a scenario id (a template literal
      prints the integer in decimal). */
  function Encode(id: int): (h: string)
    ensures StartsWith(h, IdPrefix) && |h| > |IdPrefix|
  {
    IdPrefix + ToDecimal(id)
  }

  /** The id `handleRouting` asks for, or None when it asks for none: the
      fragment must start with "#id=", and `hash.replace('#id=', '')` then
      removes exactly that prefix (the first occurrence is at position 0)
      before `parseInt` reads the rest. A NaN result matches no id, so it is
      None as well. */
  function Decode(hash: string): (r: Option<int>)
    ensures r.Some? ==> StartsWith(hash, IdPrefix) && |hash| > |IdPrefix|
  {
    if StartsWith(hash, IdPrefix) then ParseInt(hash[|IdPrefix|..]) else None
  }

  /** Decoding the fragment written for an id gives that id back. */
  lemma DecodeEncode(id: int)
    ensures Decode(Encode(id)) == Some(id)
  {
    var h := Encode(id);
    assert h[|IdPrefix|..] == ToDecimal(id);
    ParseIntRoundTrip(id);
  }

  /** Text after the numeral is ignored ("#id=12abc" asks for 12), as long
      as it does not extend the numeral or turn "0" into a "0x" prefix. */
  lemma DecodeIgnoresTrailing(id: int, t: string)
    requires t == [] || !IsDecimalDigit(t[0])
    requires !(id == 0 && t != [] && (t[0] == 'x' || t[0] == 'X'))
    ensures Decode(Encode(id) + t) == Some(id)
  {
    ParseIntIgnoresTrailing(id, t);
    PrefixedDecode(ToDecimal(id) + t);
    assert Encode(id) + t == IdPrefix + (ToDecimal(id) + t);
  }

  lemma PrefixedDecode(body: string)
    ensures Decode(IdPrefix + body) == ParseInt(body)
  {
    var h := IdPrefix + body;
    assert h[..|IdPrefix|] == IdPrefix;
    assert h[|IdPrefix|..] == body;
  }

  /** A fragment requests no jump unless a decimal digit follows "#id=",
      the leading white space and an optional sign ("#id=x5" and "#id=-x5"
      request nothing even though they contain a digit). */
  lemma DecodeNeedsDigit(hash: string)
    requires StartsWith(hash, IdPrefix) ==> !HasLeadingDigit(hash[|IdPrefix|..])
    ensures Decode(hash).None?
  {
  }

  /** Empty, foreign and non-numeric fragments request no jump. */
  lemma DecodeRejectsGarbage()
    ensures Decode("").None?
    ensures Decode("#bogus").None?
    ensures Decode("#id=").None?
    ensures Decode("#id=abc").None?
    ensures Decode("#ID=7").None?
    ensures Decode("#id=x5").None?
    ensures Decode("#id=-x5").None?
  {
    assert "#bogus"[..4] != IdPrefix by { assert "#bogus"[1] == 'b'; }
    assert "#ID=7"[..4] != IdPrefix by { assert "#ID=7"[1] == 'I'; }
    NoLeadingDigit("", "");
    NoLeadingDigit("abc", "abc");
    NoLeadingDigit("x5", "x5");
    NoLeadingDigit("-x5", "x5");
  }

  /** Decoding "#id=" followed by `body`, when the unsigned part `u` of
      `body` does not start with a digit. */
  lemma NoLeadingDigit(body: string, u: string)
    requires body == [] || !IsStrWhiteSpace(body[0])
    requires Unsigned(body) == u && (u == [] || !IsDecimalDigit(u[0]))
    ensures Decode(IdPrefix + body).None?
  {
    TrimStartKeepsNonSpace(body);
    PrefixedDecode(body);
  }
}

=== FILE: Scenarios.dfy ===
/** The scenario collection: lookup by id (`Array.prototype.findIndex`),
    the category filter of `filterScenarios`, and the scenario of the day of
    `calculateDailyScenario`. */
module Scenarios {
  import opened JsValues

  /** Ids arrive as JSON numbers; ids are taken to be safe integers, so they
      print in plain decimal and are compared exactly. */
  const MaxSafeInteger: int := 0x1F_FFFF_FFFF_FFFF

  type Id = k: int | -MaxSafeInteger <= k <= MaxSafeInteger

  /** A scenario record, reduced to the two fields navigation reads. */
  datatype Scenario = Scenario(id: Id, category: string)

  /** The category tag that selects the whole collection. */
  const All: string := "all"

  /** Milliseconds in a day (`CONFIG.dayMs`). */
  const DayMs: int := 86400000

  /** `scenarios.findIndex(s => s.id === id)`: the index of the first record
      with this id, or -1 when there is none. */
  function FindIndex(scenarios: seq<Scenario>, id: int): (r: int)
    ensures -1 <= r < |scenarios|
    ensures r == -1 <==> forall j :: 0 <= j < |scenarios| ==> scenarios[j].id != id
    ensures r >= 0 ==> scenarios[r].id == id
    ensures r >= 0 ==> forall j :: 0 <= j < r ==> scenarios[j].id != id
  {
    if |scenarios| == 0 then -1
    else if scenarios[0].id == id then 0
    else
      var k := FindIndex(scenarios[1..], id);
      if k == -1 then -1 else k + 1
  }

  /** `scenarios.filter(s => s.category === category)`: the records of one
      category, in their original order. */
  function Matching(scenarios: seq<Scenario>, category: string): (r: seq<Scenario>)
    ensures |r| <= |scenarios|
    ensures forall i :: 0 <= i < |r| ==> r[i].category == category
    ensures forall x :: x in r <==> x in scenarios && x.category == category
  {
    if scenarios == [] then []
    else if scenarios[0].category == category then [scenarios[0]] + Matching(scenarios[1..], category)
    else Matching(scenarios[1..], category)
  }

  /** One step of the filter, on a record put in front of the rest. */
  lemma MatchingCons(x: Scenario, rest: seq<Scenario>, c: string)
    ensures Matching([x] + rest, c) == if x.category == c then [x] + Matching(rest, c) else Matching(rest, c)
  {
    assert ([x] + rest)[1..] == rest;
  }

  /** The working set for a category: a copy of the whole collection for
      "all", the matching records otherwise. */
  function FilterBy(scenarios: seq<Scenario>, category: string): (r: seq<Scenario>)
    ensures category == All ==> r == scenarios
    ensures category != All ==> forall x :: x in r <==> x in scenarios && x.category == category
    ensures forall x :: x in r ==> x in scenarios
  {
    if category == All then scenarios else Matching(scenarios, category)
  }

  /** `r` is `s` with some elements left out, the rest in the same order. */
  predicate IsSubsequence(r: seq<Scenario>, s: seq<Scenario>)
    decreases |s|
  {
    if r == [] then true
    else if s == [] then false
    else if r[0] == s[0] then IsSubsequence(r[1..], s[1..])
    else IsSubsequence(r, s[1..])
  }

  /** Filtering keeps the relative order of the records it keeps. */
  lemma {:induction false} MatchingIsSubsequence(s: seq<Scenario>, c: string)
    ensures IsSubsequence(Matching(s, c), s)
  {
    if s != [] {
      MatchingIsSubsequence(s[1..], c);
      var r := Matching(s, c);
      if s[0].category == c {
        assert r[0] == s[0] && r[1..] == Matching(s[1..], c);
      } else if r != [] {
        assert r[0] in Matching(s[1..], c);
        SubsequenceSkip(r, s);
      }
    }
  }

  lemma SubsequenceSkip(r: seq<Scenario>, s: seq<Scenario>)
    requires r != [] && s != [] && IsSubsequence(r, s[1..])
    ensures IsSubsequence(r, s) || r[0] == s[0]
  {
  }

  /** Filtering keeps every record of the category as often as it occurs,
      and drops every other record. */
  lemma {:induction false} MatchingMultiplicity(s: seq<Scenario>, c: string, x: Scenario)
    ensures multiset(Matching(s, c))[x] == if x.category == c then multiset(s)[x] else 0
  {
    if s != [] {
      MatchingMultiplicity(s[1..], c, x);
      assert multiset(s) == multiset{s[0]} + multiset(s[1..]) by {
        assert s == [s[0]] + s[1..];
      }
      if s[0].category == c {
        assert multiset(Matching(s, c)) == multiset{s[0]} + multiset(Matching(s[1..], c));
      }
    }
  }

  /** Filtering a concatenation filters each part. */
  lemma {:induction false} MatchingAppend(a: seq<Scenario>, b: seq<Scenario>, c: string)
    ensures Matching(a + b, c) == Matching(a, c) + Matching(b, c)
  {
    if a == [] {
      assert a + b == b;
    } else {
      assert (a + b)[0] == a[0];
      assert (a + b)[1..] == a[1..] + b;
      MatchingAppend(a[1..], b, c);
    }
  }

  /** Filtering twice by the same category changes nothing. */
  lemma {:induction false} FilterIdempotent(s: seq<Scenario>, c: string)
    ensures FilterBy(FilterBy(s, c), c) == FilterBy(s, c)
  {
    if c != All {
      MatchingFixesMatches(Matching(s, c), c);
    }
  }

  lemma {:induction false} MatchingFixesMatches(s: seq<Scenario>, c: string)
    requires forall i :: 0 <= i < |s| ==> s[i].category == c
    ensures Matching(s, c) == s
  {
    if s != [] {
      MatchingFixesMatches(s[1..], c);
    }
  }

  /** `Math.floor(now / CONFIG.dayMs)`: the day number of an instant given in
      epoch milliseconds. Dafny's division by a positive divisor rounds down. */
  function DateCode(now: int): int {
    now / DayMs
  }

  /** `dateCode % scenarios.length`, a Number that is NaN for an empty list
      and negative for a negative day number not divisible by the length. */
  function DailyIndex(n: nat, now: int): (r: Num)
    ensures r.Int? <==> n > 0
    ensures r.Int? && now >= 0 ==> 0 <= r.value < n
    ensures n > 0 && now >= 0 ==> r == Int((now / DayMs) % n)
  {
    RemNum(Int(DateCode(now)), n)
  }

  /** `scenarios[index].id`. Reading `.id` of the `undefined` that a NaN or
      negative index yields throws, which None stands for. */
  function DailyId(scenarios: seq<Scenario>, now: int): (r: Option<int>)
    ensures |scenarios| == 0 ==> r.None?
    ensures |scenarios| > 0 && now >= 0 ==> r.Some?
    ensures r.Some? ==> exists i :: 0 <= i < |scenarios| && scenarios[i].id == r.value
    ensures |scenarios| > 0 && now >= 0 ==> r == Some(scenarios[(now / DayMs) % |scenarios|].id)
  {
    match DailyIndex(|scenarios|, now)
    case NaN => None
    case Int(i) => if i < 0 then None else Some(scenarios[i].id)
  }

  /** Every instant of one day picks the same scenario. */
  lemma DailySameDay(scenarios: seq<Scenario>, now: int, offset: int)
    requires 0 <= offset < DayMs
    ensures DailyId(scenarios, DateCode(now) * DayMs + offset) == DailyId(scenarios, now)
  {
    DayOfInstant(DateCode(now), offset);
  }

  lemma DayOfInstant(d: int, offset: int)
    requires 0 <= offset < DayMs
    ensures DateCode(d * DayMs + offset) == d
  {
  }

  /** At midnight the pick moves one place forward through the unfiltered
      collection, wrapping from the last record to the first. */
  lemma DailyNextDay(n: nat, now: int)
    requires n > 0 && now >= 0
    ensures DailyIndex(n, now + DayMs).value == (DailyIndex(n, now).value + 1) % n
  {
    assert DateCode(now + DayMs) == DateCode(now) + 1 by {
      DayOfInstant(DateCode(now) + 1, now % DayMs);
      assert (DateCode(now) + 1) * DayMs + now % DayMs == now + DayMs;
    }
    ModSucc(DateCode(now), n);
  }
}

=== FILE: Theme.dfy ===
/** The colour theme: `loadTheme` reads the stored value, and `toggleTheme`
    flips it. */
module Theme {
  import opened JsValues

  const Dark: string := "dark"
  const Light: string := "light"

  /** `localStorage.getItem('theme') || CONFIG.defaultTheme`: a missing or
      empty stored value falls back to "dark"; any other stored string is
      kept as it is. */
  function LoadTheme(saved: Option<string>): (theme: string)
    ensures theme != ""
    ensures saved.Some? && saved.value != "" ==> theme == saved.value
    ensures saved.None? || saved == Some("") ==> theme == Dark
  {
    match saved
    case Some(s) => if s != "" then s else Dark
    case None => Dark
  }

  /** `AppState.theme === 'dark' ? 'light' : 'dark'`. */
  function ToggleTheme(theme: string): (r: string)
    ensures r == Dark || r == Light
    ensures r == Light <==> theme == Dark
  {
    if theme == Dark then Light else Dark
  }

  /** Toggling twice restores exactly the two known themes; an unknown stored
      value is replaced for good by the first toggle. */
  lemma ToggleTwice(theme: string)
    ensures ToggleTheme(ToggleTheme(theme)) == theme <==> theme == Dark || theme == Light
    ensures theme != Dark && theme != Light ==> ToggleTheme(theme) == Dark
  {
  }
}
